=== FILE: README.md ===
# Tenant-aware signing-key resolution, modelled in Dafny

This project models the core of a multi-tenant API sample built on Auth0.
The API server verifies JSON Web Tokens whose signing key depends on the
tenant that issued them. Its `secretCallback` is invoked by `express-jwt`
for every token. It looks in an LRU cache keyed by `iss + '|' + aud`. On a
miss it finds the tenant whose Auth0 domain is the issuer's host. For
`HS256` it returns the tenant's base64 secret, decoded. For `RS256` it
fetches the issuer's JSON Web Key Set, takes the first key whose `kid`
matches the token, and wraps that key's first `x5c` certificate as PEM
(`certToPEM`). After verification a middleware (`addTenant`) looks the
tenant up again and records its name on the request. The single-page-app
server reads the tenant name off its own host name and renders the login
page with that tenant's Auth0 domain and client id.

Modules, one per component:

- `Wrappers`: `Option` and `Result`.
- `Strings`: JavaScript line terminators and `indexOf`.
- `Seqs`: lodash-style find-first.
- `Pem`: `certToPEM`.
- `Data`: the tenant record, `getTenantByIssuer` and `getUsersByTenantIdentifier`.
- `KeyCache`: the secrets cache, as a map of live entries.
- `Jwks`: the key set and the fetch outcome.
- `Resolver`: `secretCallback`.
- `TenantMiddleware`: `addTenant`.
- `Spa`: `getTenantFromDomain` and the `/` route.
- `Scenarios`: concrete resolutions over the sample tenants file.

One resolver call is the pure function `Resolver.Resolve`. It takes the
directory and the foreign primitives (`Env`), the live cache, the token's
header and payload, and the network's answer. It returns the callback's
outcome, the cache after the call, and the key-set URL requested, if any.

Inputs, not re-implemented:

- URL parsing (`url.parse(issuer).hostname`) is the function field `Env.hostname`.
- Base64 decoding (`new Buffer(secret, 'base64')`) is the function field `Env.base64Decode`.
- The key-set HTTP request is a `FetchOutcome`: a transport error, or a status code with a parsed body.

Behaviour of the code that the model keeps as written:

- An HS256 token of a tenant without a secret throws inside `new Buffer(undefined, 'base64')` (API/server.js:44). Express hands the exception to the `/api` error handler, which ends the request. This is modelled as `Fault`.
- A matching key without a usable first certificate throws at `key.x5c[0]` or at `match(..).join` (API/server.js:69, API/server.js:22). Nothing catches this throw, so the process ends. The model keeps only the failed call, as `Fault` too (see "Left out"). It covers a missing or empty `x5c`, and a first entry with no character outside line terminators, where `match` returns `null`.
- The key set is fetched with certificate checking disabled (API/server.js:52). The model has no transport, so this does not appear.
- `certToPEM` cuts with `/.{1,64}/g` (API/server.js:22). That pattern skips line terminators instead of cutting at fixed offsets, and the model follows it on text of the Basic Multilingual Plane: each run between terminators is cut into 64-character pieces on its own (`Pem.ChunksAtTerminator`), so `"ab\ncd"` gives `ab` and `cd` (`Pem.CutAtNewline`). For the single-line base64 text of a certificate, this is the 64-column wrapping.
- The host pattern of the single-page app has an unescaped dot (SPA/app.js:17). `acme-yourcompany-com` is therefore accepted as tenant `acme` (`Spa.UnescapedDotAcceptsAnyCharacter`).

## Model

| member | source | states |
|---|---|---|
| Seqs.FindFirst | API/data.js:10 | the index returned holds the first element satisfying the predicate; none before it does; `None` exactly when no element does |
| Seqs.Find | API/server.js:61-63 | `_.find` returns the first element satisfying the predicate, `None` exactly when none does |
| Pem.Chunks | API/server.js:22 | every piece of `match(/.{1,64}/g)` is 1 to 64 characters long and holds no line terminator |
| Pem.ChunksConcat | API/server.js:22 | concatenating the pieces gives the input with its line terminators removed; nothing is lost or invented |
| Pem.ChunksOfSingleLine | API/server.js:22 | on input without line terminators the greedy match equals an independent fixed-width cutting |
| Pem.ChunksAtTerminator | API/server.js:22 | a line terminator ends a piece: the text before it is cut at fixed width on its own, and the match starts afresh after it; with the single-line case this fixes the pieces of every input |
| Pem.CutAtNewline | API/server.js:22 | `"ab\ncd"` is cut into `ab` and `cd`, not stripped to `abcd` first |
| Pem.FixedWidthLinesShape | API/server.js:22 | the fixed-width lines of a non-empty string are 64 characters except the last, which has 1 to 64, and they spell the string |
| Pem.CertToPem | API/server.js:21-26 | `certToPEM` fails (`match` gives `null`, `join` throws) exactly when the input has no character outside line terminators; otherwise it returns text longer than both banners |
| Pem.CertToPemFraming | API/server.js:21-26 | the output starts with the BEGIN banner and ends with the END banner; splitting the body on newlines gives exactly the matched pieces; removing the newlines gives the input without line terminators |
| Pem.CertToPemRoundTrip | API/server.js:21-26 | for a non-empty single-line certificate, the output is banner + body + banner; the body lines are 64 characters except the last (1 to 64); deleting the newlines gives the certificate back |
| Data.TenantByDomain | API/data.js:10 | the tenant found is the first in directory order whose `auth0Domain` is the domain; not-found exactly when no tenant has it |
| Data.GetTenantByIssuer | API/data.js:7-11 | the tenant returned is the first in directory order whose `auth0Domain` is the issuer's host; not-found exactly when the issuer has no host or no tenant serves it |
| Data.LookupDependsOnlyOnHost | API/data.js:8-10 | issuers with the same host resolve to the same tenant |
| Data.LookupFindsRegisteredTenant | API/data.js:7-11 | in a directory with distinct domains, an issuer whose host is a tenant's domain finds that tenant |
| Data.GetUsersByTenantIdentifier | API/data.js:13-15 | the callback always gets a null error, and the user list exactly when the identifier is in the users table |
| KeyCache.Get | API/server.js:31 | a read hits exactly when the key is stored and yields the stored material |
| KeyCache.Set | API/server.js:45 | a write stores the value under its key and keeps every other entry |
| KeyCache.Evict | API/server.js:13-19 | expiry or eviction only removes entries and never alters the ones kept |
| KeyCache.SetThenGet | API/server.js:45 | reading a key just written yields the written value; reads of other keys are unaffected |
| Jwks.JwksUrl | API/server.js:48 | the key-set address is the issuer followed by `.well-known/jwks.json` |
| Jwks.SelectKey | API/server.js:61-63 | the key chosen carries the token's `kid` and no earlier key does; none is chosen exactly when no key carries it |
| Resolver.KeyFromJwks | API/server.js:52-72 | a transport error is passed through unchanged; a status other than 200 gives the JWKS error; the signing-key error arises exactly when no key has the `kid`; a first matching key whose first certificate converts gives its PEM, and one without a convertible first certificate throws (`Fault`); success is only ever that PEM |
| Resolver.MessageIdentifiesError | API/server.js:39-75 | the error texts the resolver builds ("Invalid issuer ", "Failed to obtain JWKS from ", "Failed to obtain signing key used by ", "Unsupported JWT algorithm: ") identify the failure kind and the issuer or algorithm named |
| Resolver.Resolve | API/server.js:28-77 | a hit returns the stored material with the cache untouched and no request; failures leave the cache unchanged; successes store the returned material under `iss + '|' + aud`; a key-set request is made exactly for RS256 tokens of a known tenant on a miss |
| Resolver.HitIgnoresEverythingElse | API/server.js:30-35 | on a hit the outcome does not depend on the tenant directory, the header or the network |
| Resolver.UnknownIssuerRejected | API/server.js:37-40 | on a miss, an issuer that matches no tenant gets "Invalid issuer" with no request and no cache change |
| Resolver.SymmetricPath | API/server.js:43-46 | HS256 returns the decoded tenant secret and stores it under the cache key, without a request; a tenant without a secret throws and caches nothing |
| Resolver.AsymmetricFetchFailures | API/server.js:52-58 | RS256 requests the issuer's key set; a transport error is returned unchanged and a non-200 status gives "Failed to obtain JWKS"; the cache is unchanged in both cases |
| Resolver.AsymmetricKeySelection | API/server.js:61-71 | with a 200 answer, the first key carrying the token's `kid` decides; the PEM of its first certificate is returned and cached |
| Resolver.AsymmetricNoMatchingKey | API/server.js:61-67 | with a 200 answer and no key carrying the `kid`, the signing-key error is returned and nothing is cached |
| Resolver.UnsupportedAlgorithmRejected | API/server.js:74-75 | any other `alg` gets "Unsupported JWT algorithm", with no request and no cache change |
| Resolver.SuccessThenHit | API/server.js:30-46 | after a success, a later call with the same issuer and audience returns the same material from the cache, with any header, as long as the entry was not evicted |
| Resolver.ResolvePreservesSoundness | API/server.js:37-46 | resolution and eviction keep every cached key attributable to an issuer the directory knows |
| Resolver.MissMaterialMatchesAlgorithm | API/server.js:42-71 | on a miss, HS256 yields secret bytes and RS256 yields PEM text |
| Resolver.CachedSecretServedToOtherAlgorithm | API/server.js:30-35 | because the cache key omits the algorithm, an RS256 token after an HS256 token with the same claims gets the HS256 secret bytes |
| Resolver.CacheKeyInjective | API/server.js:30 | for issuers without a bar, equal cache keys imply equal issuer and audience |
| Resolver.CacheKeyCollision | API/server.js:30 | an issuer containing a bar can share a cache slot with a different issuer/audience pair |
| TenantMiddleware.AddTenant | API/tenant-middleware.js:4-8 | `next` is reached exactly when the issuer finds a tenant; the request is then the same except that `tenantName` is that tenant's name; otherwise the call throws with the request untouched |
| TenantMiddleware.OnlyIssuerIsRead | API/tenant-middleware.js:5 | requests whose verified issuers agree get the same outcome and the same tenant name |
| TenantMiddleware.AgreesWithResolver | API/tenant-middleware.js:5-6 | after a key was resolved on a cache miss, the second lookup succeeds with the name of a tenant whose domain is the issuer's host |
| Spa.LeftmostMatch | SPA/app.js:17-18 | the reported match satisfies the pattern, starts no later than any other match, and is absent exactly when the pattern matches nowhere |
| Spa.GetTenantFromDomain | SPA/app.js:16-23 | `null` exactly when the host does not match; otherwise a non-empty run of word characters |
| Spa.TenantNameShape | SPA/app.js:17-20 | a tenant name is followed, at the host's end, by `-yourcompany`, one non-terminator character and `com`; it is preceded by the host's start or a non-word character |
| Spa.TenantNameFromWellFormedHost | SPA/app.js:17-20 | every host of the form prefix + word + `-yourcompany` + character + `com`, with the prefix not ending in a word character, yields that word |
| Spa.LastWordIsTaken | SPA/app.js:17-20 | `foo-bar-yourcompany.com` yields `bar` |
| Spa.UnescapedDotAcceptsAnyCharacter | SPA/app.js:17 | `acme-yourcompany-com` yields `acme` |
| Spa.TenantByName | SPA/app.js:30 | a tenant found carries the name; not-found exactly when no tenant does |
| Spa.RootRoute | SPA/app.js:26-39 | an unmatched host gives `next("Invalid domain …")`; an unknown name gives `next('Invalid Tenant …')` exactly when no tenant has it; when the first tenant with the host's name exists, `index` is rendered with exactly that tenant's domain and client id |
| Spa.LoginPageIgnoresSecrets | SPA/app.js:33-37 | the route's outcome does not change when only the tenants' secrets change |
| Scenarios.Tenant2SymmetricThenCached | API/server.js:28-46 | for the sample `tenant2` (domain lower-cased), an HS256 call returns its decoded secret, and a repeat call is served from the cache even against another directory |
| Scenarios.Tenant1SymmetricFaults | API/server.js:43-44 | for the sample `tenant1`, which has no secret, an HS256 call throws and the cache stays empty |
| Scenarios.Tenant1AsymmetricFailures | API/server.js:52-67 | for `tenant1`, an unknown `kid` and an HTTP 500 both fail after requesting the key set, and both leave the cache empty |

## Left out

- The Express wiring of both servers is left out: logging, CORS, `express-jwt` registration, the `/api/users` handler, the error handlers, Jade rendering and `listen`. It is framework I/O.
- The network request for the key set is left out. Its result is an input (`FetchOutcome`). So are its disabled certificate checking and its asynchrony: the RS256 continuation runs within the same call, and no other call interleaves.
- The `lru-cache` internals are left out: the 5,242,880-unit size bound, least-recently-used eviction and the five-minute expiry. The cache is the map of entries live when a call starts, and `KeyCache.Evict` covers any removal between calls. Recency and expiry order are not modelled.
- `url.parse(..).hostname` and base64 decoding are left out. They are uninterpreted function inputs.
- Signature verification, done by `express-jwt`, is left out.
- `Fault` does not distinguish its cases, and it ends only the one call. In the source an HS256 tenant without a secret throws while the request is being handled (API/server.js:44). Express passes that error to the `/api` error handler, which finds no `status` and calls `next()` (API/server.js:99-105), and the server keeps running.
- Resolver.KeyFromJwks: in the source, a matching key without a usable certificate throws inside the key-set response handler (API/server.js:69, API/server.js:22). Nothing catches that throw, the callback is never called, and the Node process ends, losing the whole cache and every call in flight. The model treats it as a failure of that call alone (`Fault`, cache unchanged). A restarted server corresponds to `KeyCache.Evict` of every key before the next call.
- Jwks.SelectKey: JavaScript's loose `==` between a `kid` string and a non-string `kid` (a number, say) is not modelled. Key ids are optional strings, and `undefined` and `null` are the same `None`.
- Jwks.SelectKey: a response body whose `keys` is missing is modelled as an empty key list, which gives the same outcome (`_.find(undefined, ..)` is `undefined`). So is a body that is a string or a number, such as a 200 answer that is not JSON and stays text: reading `keys` on it gives `undefined`, and the callback gets the signing-key error. A body whose `keys` is an object rather than an array, which lodash searches by its values, is not modelled. Neither is a `null` or empty body, on which reading `jwks.keys` throws inside the response handler.
- Strings are Dafny strings, sequences of Unicode scalar values. JavaScript counts UTF-16 code units, so `.` and `{1,64}` in `certToPEM` and in the host pattern of the single-page app agree with the model only on text of the Basic Multilingual Plane. That text includes all base64 and all ASCII host names. Outside it, the source cuts at other places, can split a surrogate pair, and its `.` cannot match an astral character where the model's can.
- Resolver.Resolve: a token without an `iss` claim is not modelled, because claims are strings. In the source `url.parse(undefined)` throws (API/data.js:8); the model can only pass a string issuer.
- Spa.RootRoute: a request without a host name is not modelled, because the host is a string. In the source `host.match` then throws (SPA/app.js:18).
- Data.GetTenantByIssuer: the host function is unconstrained. Node's `url.parse` lower-cases host names, so a tenant whose `auth0Domain` holds an upper-case letter is never found in the source. The model does not carry that restriction. The sample tenants file writes its domains as upper-case placeholders, and `Scenarios` uses them lower-cased.
- Spa.TenantByName: `_.find(tenants, 'name', tenantName)` is taken as find-first by name. Its behaviour depends on the lodash version, which is not part of this model.
- The users table (`API/users.js`) is not part of this model. User records are a type parameter.
- Data.GetUsersByTenantIdentifier: the table is a map from tenant names, so only names stored in it are found. In the source `users[identifier]` is a property read on the object the users module exports. On an ordinary object it also finds inherited `Object.prototype` members, so names such as `constructor`, `toString` or `__proto__` yield a value where the model yields none. That module is not part of this model, so its prototype is unknown.
- `console.log` calls are left out.

=== FILE: data.dfy ===
/** The tenant directory of the API (`API/data.js`) and the tenant records it
    reads. A tenant is identified towards the API by the host name of the
    issuer (`iss`, section 4.1.1 of RFC 7519) of the tokens it signs. */
module Data {
  import opened Wrappers
  import Seqs

  /** One entry of the tenants file. `secret` is the base64 text of the
      tenant's HS256 client secret and is absent for tenants that sign with
      RS256 only. */
  datatype Tenant = Tenant(
    name: string,
    auth0Domain: string,
    auth0ClientId: string,
    secret: Option<string>)

  /** `url.parse(issuer).hostname`, which is `null` for issuers without a
      host. URL parsing is not modelled; callers supply it. */
  type HostnameOf = string -> Option<string>

  predicate ServesDomain(t: Tenant, domain: string) {
    t.auth0Domain == domain
  }

  /** The first tenant, in directory order, whose `auth0Domain` is `domain`. */
  function TenantByDomain(tenants: seq<Tenant>, domain: string): (r: Option<Tenant>)
    ensures r.Some? ==> r.value.auth0Domain == domain
    ensures r.None? <==> forall i :: 0 <= i < |tenants| ==> tenants[i].auth0Domain != domain
    ensures r.Some? ==> exists i :: 0 <= i < |tenants| && tenants[i] == r.value
                                    && forall j :: 0 <= j < i ==> tenants[j].auth0Domain != domain
  {
    Seqs.Find(tenants, t => ServesDomain(t, domain))
  }

  /** `data.getTenantByIssuer(issuer)`: the first tenant serving the host of
      the issuer URL, or `None` (the source's `undefined`). A tenant record
      always holds a string domain, so an issuer without a host finds none. */
  function GetTenantByIssuer(tenants: seq<Tenant>, hostname: HostnameOf, issuer: string): (r: Option<Tenant>)
    ensures r.Some? ==> hostname(issuer) == Some(r.value.auth0Domain)
    ensures r.None? <==> (hostname(issuer).None? ||
                          forall i :: 0 <= i < |tenants| ==> tenants[i].auth0Domain != hostname(issuer).value)
    ensures r.Some? ==> exists i :: 0 <= i < |tenants| && tenants[i] == r.value
                                    && forall j :: 0 <= j < i ==> tenants[j].auth0Domain != r.value.auth0Domain
  {
    match hostname(issuer)
    case None => None
    case Some(domain) => TenantByDomain(tenants, domain)
  }

  /** The lookup sees the issuer only through its host name: issuers with the
      same host resolve to the same tenant. */
  lemma LookupDependsOnlyOnHost(tenants: seq<Tenant>, hostname: HostnameOf, iss1: string, iss2: string)
    requires hostname(iss1) == hostname(iss2)
    ensures GetTenantByIssuer(tenants, hostname, iss1) == GetTenantByIssuer(tenants, hostname, iss2)
  {
  }

  /** In a directory whose domains are distinct, every tenant is found by any
      issuer whose host is the tenant's domain. */
  lemma LookupFindsRegisteredTenant(tenants: seq<Tenant>, hostname: HostnameOf, issuer: string, k: nat)
    requires k < |tenants|
    requires forall i, j :: 0 <= i < j < |tenants| ==> tenants[i].auth0Domain != tenants[j].auth0Domain
    requires hostname(issuer) == Some(tenants[k].auth0Domain)
    ensures GetTenantByIssuer(tenants, hostname, issuer) == Some(tenants[k])
  {
    var r := GetTenantByIssuer(tenants, hostname, issuer);
    assert r.Some?;
    var i :| 0 <= i < |tenants| && tenants[i] == r.value
             && forall j :: 0 <= j < i ==> tenants[j].auth0Domain != r.value.auth0Domain;
    if i < k {
      assert tenants[i].auth0Domain == tenants[k].auth0Domain;
    } else if k < i {
      assert tenants[k].auth0Domain == r.value.auth0Domain;
    }
  }

  /** What `data.getUsersByTenantIdentifier` hands to its `done` callback:
      an error (always `null` in the source) and the user list, which is
      `undefined` for an unknown identifier. */
  datatype UsersReply<U> = UsersReply(err: Option<string>, users: Option<U>)

  /** `data.getUsersByTenantIdentifier(identifier, done)`: a plain lookup in
      the users table, never failing. */
  function GetUsersByTenantIdentifier<U>(users: map<string, U>, identifier: string): (r: UsersReply<U>)
    ensures r.err == None
    ensures r.users.Some? <==> identifier in users
    ensures r.users.Some? ==> r.users.value == users[identifier]
  {
    UsersReply(None, if identifier in users then Some(users[identifier]) else None)
  }
}

=== FILE: jwks.dfy ===
/** The JSON Web Key Set an issuer publishes (section 5 of RFC 7517) and the
    outcome of fetching it. Only the members the API reads are kept: each
    key's `kid` (section 4.5) and its `x5c` certificate chain (section 4.7). */
module Jwks {
  import opened Wrappers
  import Seqs

  /** One key. A missing `kid` (or a `null` one) is `None`; JavaScript's loose
      `==` treats `undefined` and `null` alike, and the model compares the
      option values. A missing `x5c` is the empty chain. */
  datatype Jwk = Jwk(kid: Option<string>, x5c: seq<string>)

  /** The parsed response body. A body without `keys`, and a body that is a
      string or a number (an answer that is not JSON stays text), make
      `jwks.keys` undefined and `_.find` return `undefined`, exactly as an
      empty key list does, so they are modelled as one. */
  datatype KeySet = KeySet(keys: seq<Jwk>)

  /** What the HTTP GET of the key set produces: a transport error, or a
      response with its status code and parsed body. */
  datatype FetchOutcome = TransportError(cause: string) | Response(statusCode: int, body: KeySet)

  /** The address the key set is fetched from: the issuer URL followed by the
      well-known path. Auth0 issuers end with a slash; the path is appended as
      is, without checking for one. */
  function JwksUrl(issuer: string): (url: string)
    ensures |url| == |issuer| + 21 && url[..|issuer|] == issuer
    ensures url[|issuer|..] == ".well-known/jwks.json"
  {
    issuer + ".well-known/jwks.json"
  }

  predicate HasKid(k: Jwk, kid: Option<string>) {
    k.kid == kid
  }

  /** The first key of the set whose `kid` is the token's `kid`. */
  function SelectKey(keys: seq<Jwk>, kid: Option<string>): (r: Option<Jwk>)
    ensures r.Some? ==> r.value.kid == kid
    ensures r.None? <==> forall i :: 0 <= i < |keys| ==> keys[i].kid != kid
    ensures r.Some? ==> exists i :: 0 <= i < |keys| && keys[i] == r.value
                                    && forall j :: 0 <= j < i ==> keys[j].kid != kid
  {
    Seqs.Find(keys, k => HasKid(k, kid))
  }
}

=== FILE: key_cache.dfy ===
/** The secrets cache of the API server: an `lru-cache` instance keyed by the
    string `iss + '|' + aud`, holding the key material resolved for a token.

    The model is the map of entries that are live when a call starts. The
    cache's own eviction (least recently used beyond its size bound) and its
    five-minute expiry are not modelled as such; they can only ever remove
    entries, which `Evict` captures for any set of keys. */
module KeyCache {
  import opened Wrappers

  /** What a resolution yields: the bytes of a decoded HS256 secret (a Node
      `Buffer`) or the PEM text of an RS256 signing certificate. Both are
      truthy values in JavaScript, so a stored entry is always a cache hit. */
  datatype Material = Secret(bytes: seq<bv8>) | PublicKeyPem(pem: string)

  type Cache = map<string, Material>

  /** `secretsCache.get(key)` on the live entries. */
  function Get(cache: Cache, key: string): (r: Option<Material>)
    ensures r.Some? <==> key in cache
    ensures r.Some? ==> r.value == cache[key]
  {
    if key in cache then Some(cache[key]) else None
  }

  /** `secretsCache.set(key, value)`: inserts or replaces one entry. */
  function Set(cache: Cache, key: string, value: Material): (r: Cache)
    ensures r.Keys == cache.Keys + {key}
    ensures r[key] == value
    ensures forall k :: k in cache && k != key ==> r[k] == cache[k]
  {
    cache[key := value]
  }

  /** Entries dropped by expiry or eviction between two calls. */
  function Evict(cache: Cache, gone: set<string>): (r: Cache)
    ensures r.Keys == cache.Keys - gone
    ensures forall k :: k in r ==> r[k] == cache[k]
  {
    map k | k in cache && k !in gone :: cache[k]
  }

  /** A value just stored is what the next read of its key returns, and no
      other key's reading changes. */
  lemma SetThenGet(cache: Cache, key: string, value: Material, other: string)
    ensures Get(Set(cache, key, value), key) == Some(value)
    ensures other != key ==> Get(Set(cache, key, value), other) == Get(cache, other)
  {
  }
}

=== FILE: pem.dfy ===
/** `certToPEM` of the API server: the first certificate of a JSON Web Key's
    `x5c` chain (section 4.7 of RFC 7517) is cut into lines of at most 64
    characters and framed by the certificate banners of section 2 of RFC 7468.

    The cutting is done in the source by `cert.match(/.{1,64}/g)`. In a
    JavaScript regular expression `.` matches any character except the four
    line terminators, so the global match skips every line terminator and cuts
    each terminator-free run greedily into pieces of 64. When nothing matches
    (the input holds no character other than line terminators) `match`
    returns `null` and the following `.join` throws; the model returns `None`
    for that case. JavaScript counts UTF-16 code units where a Dafny string
    counts scalar values, so the cutting agrees with the source on text of the
    Basic Multilingual Plane, which includes all base64. */
module Pem {
  import opened Wrappers
  import opened Strings

  const BeginBanner: string := "-----BEGIN CERTIFICATE-----\n"
  const EndBanner: string := "\n-----END CERTIFICATE-----\n"
  const LineWidth: nat := 64

  predicate IsSingleLine(s: string) {
    forall i :: 0 <= i < |s| ==> !IsLineTerminator(s[i])
  }

  /** `s` without its line terminators. */
  function StripTerminators(s: string): (r: string)
    ensures IsSingleLine(r)
    ensures |r| <= |s|
  {
    if |s| == 0 then ""
    else if IsLineTerminator(s[0]) then StripTerminators(s[1..])
    else [s[0]] + StripTerminators(s[1..])
  }

  /** `s` without its `'\n'` characters. */
  function StripNewlines(s: string): (r: string)
    ensures forall i :: 0 <= i < |r| ==> r[i] != '\n'
  {
    if |s| == 0 then ""
    else if s[0] == '\n' then StripNewlines(s[1..])
    else [s[0]] + StripNewlines(s[1..])
  }

  function Concat(lines: seq<string>): string {
    if |lines| == 0 then "" else lines[0] + Concat(lines[1..])
  }

  /** `Array.prototype.join('\n')`. */
  function JoinLines(lines: seq<string>): string {
    if |lines| == 0 then ""
    else if |lines| == 1 then lines[0]
    else lines[0] + "\n" + JoinLines(lines[1..])
  }

  /** `String.prototype.split('\n')`: the lines of `s`. */
  function SplitLines(s: string): (lines: seq<string>)
    ensures |lines| >= 1
    ensures forall k :: 0 <= k < |lines| ==> '\n' !in lines[k]
    decreases |s|
  {
    var i := IndexOf(s, '\n');
    if i == |s| then [s] else [s[..i]] + SplitLines(s[i + 1..])
  }

  /** How many characters one attempt of `.{1,64}` at the start of `s` would
      take: the leading terminator-free run, capped at `limit`. */
  function LeadingRun(s: string, limit: nat): (n: nat)
    ensures n <= limit && n <= |s|
    ensures forall i :: 0 <= i < n ==> !IsLineTerminator(s[i])
    ensures n < limit && n < |s| ==> IsLineTerminator(s[n])
  {
    if limit == 0 || |s| == 0 || IsLineTerminator(s[0]) then 0
    else 1 + LeadingRun(s[1..], limit - 1)
  }

  /** The array `s.match(/.{1,64}/g)` returns, with `[]` for `null`. */
  function Chunks(s: string): (r: seq<string>)
    ensures forall k :: 0 <= k < |r| ==> 1 <= |r[k]| <= LineWidth && IsSingleLine(r[k])
    decreases |s|
  {
    if |s| == 0 then []
    else if IsLineTerminator(s[0]) then Chunks(s[1..])
    else
      var n := LeadingRun(s, LineWidth);
      [s[..n]] + Chunks(s[n..])
  }

  /** Reference cutting of a single-line string into full 64-character lines
      followed by one shorter, non-empty line. */
  function FixedWidthLines(s: string): seq<string>
    decreases |s|
  {
    if |s| == 0 then []
    else if |s| <= LineWidth then [s]
    else [s[..LineWidth]] + FixedWidthLines(s[LineWidth..])
  }

  /** `certToPEM(cert)`; `None` when the source's `match` yields `null` and the
      call throws. */
  function CertToPem(cert: string): (r: Option<string>)
    ensures r.None? <==> StripTerminators(cert) == ""
    ensures r.Some? ==> |r.value| >= |BeginBanner| + |EndBanner| + 1
  {
    var lines := Chunks(cert);
    ChunksConcat(cert);
    if |lines| == 0 then None
    else
      assert |lines[0]| >= 1;
      JoinLength(lines);
      Some(BeginBanner + JoinLines(lines) + EndBanner)
  }

  /** The text between the banners of a PEM block produced by `CertToPem`. */
  function PemBody(pem: string): string
    requires |pem| >= |BeginBanner| + |EndBanner|
  {
    pem[|BeginBanner|..|pem| - |EndBanner|]
  }

  // ---------------------------------------------------------------------------
  // Lemmas

  lemma JoinLength(lines: seq<string>)
    requires |lines| >= 1
    ensures |JoinLines(lines)| >= |lines[0]|
  {
  }

  lemma {:induction false} StripTerminatorsAppend(a: string, b: string)
    ensures StripTerminators(a + b) == StripTerminators(a) + StripTerminators(b)
    decreases |a|
  {
    if |a| == 0 {
      assert a + b == b;
    } else {
      assert (a + b)[1..] == a[1..] + b;
      StripTerminatorsAppend(a[1..], b);
    }
  }

  lemma {:induction false} StripTerminatorsSingleLine(s: string)
    requires IsSingleLine(s)
    ensures StripTerminators(s) == s
    decreases |s|
  {
    if |s| > 0 {
      StripTerminatorsSingleLine(s[1..]);
      assert s == [s[0]] + s[1..];
    }
  }

  /** Gluing the matched pieces back together gives the input without its
      line terminators: the cutting loses and invents nothing. */
  lemma {:induction false} ChunksConcat(s: string)
    ensures Concat(Chunks(s)) == StripTerminators(s)
    decreases |s|
  {
    if |s| == 0 {
    } else if IsLineTerminator(s[0]) {
      ChunksConcat(s[1..]);
    } else {
      var n := LeadingRun(s, LineWidth);
      ChunksConcat(s[n..]);
      assert s == s[..n] + s[n..];
      StripTerminatorsAppend(s[..n], s[n..]);
      StripTerminatorsSingleLine(s[..n]);
      assert Chunks(s)[1..] == Chunks(s[n..]);
    }
  }

  /** On a single-line input the greedy match is the fixed-width cutting. */
  lemma {:induction false} ChunksOfSingleLine(s: string)
    requires IsSingleLine(s)
    ensures Chunks(s) == FixedWidthLines(s)
    decreases |s|
  {
    if |s| > 0 {
      var n := LeadingRun(s, LineWidth);
      if |s| <= LineWidth {
        assert n == |s|;
        assert s[n..] == "";
        assert s[..n] == s;
      } else {
        assert n == LineWidth;
        ChunksOfSingleLine(s[n..]);
      }
    }
  }

  /** A line terminator ends a piece: the match cuts the single-line text
      before it at fixed width and starts afresh after it. With
      `ChunksOfSingleLine` this pins the match on every input. */
  lemma {:induction false} ChunksAtTerminator(a: string, t: char, b: string)
    requires IsSingleLine(a) && IsLineTerminator(t)
    ensures Chunks(a + [t] + b) == FixedWidthLines(a) + Chunks(b)
    decreases |a|
  {
    if |a| <= LineWidth {
      ShortLineAtTerminator(a, t, b);
    } else {
      var rest := a[LineWidth..];
      assert IsSingleLine(rest) by {
        assert forall i :: 0 <= i < |rest| ==> rest[i] == a[LineWidth + i];
      }
      AroundTerminator(a, t, b, LineWidth);
      ChunksStep(a + [t] + b, LineWidth);
      ChunksAtTerminator(rest, t, b);
      calc {
        Chunks(a + [t] + b);
        [a[..LineWidth]] + Chunks(rest + [t] + b);
        [a[..LineWidth]] + (FixedWidthLines(rest) + Chunks(b));
        ([a[..LineWidth]] + FixedWidthLines(rest)) + Chunks(b);
        FixedWidthLines(a) + Chunks(b);
      }
    }
  }

  /** A line of at most 64 characters before a terminator is one piece. */
  lemma ShortLineAtTerminator(a: string, t: char, b: string)
    requires IsSingleLine(a) && IsLineTerminator(t) && |a| <= LineWidth
    ensures Chunks(a + [t] + b) == FixedWidthLines(a) + Chunks(b)
  {
    ChunksSkip(t, b);
    if |a| == 0 {
      assert a + [t] + b == [t] + b;
    } else {
      AroundTerminator(a, t, b, |a|);
      ChunksStep(a + [t] + b, |a|);
      assert a[..|a|] == a;
    }
  }

  /** A newline ends a piece even when fewer than 64 characters precede
      it: the match does not strip the terminators first and then cut. */
  lemma CutAtNewline()
    ensures Chunks("ab\ncd") == ["ab", "cd"]
  {
    ChunksAtTerminator("ab", '\n', "cd");
    assert "ab" + ['\n'] + "cd" == "ab\ncd";
    ChunksOfSingleLine("cd");
  }

  /** A leading line terminator is skipped. */
  lemma ChunksSkip(t: char, b: string)
    requires IsLineTerminator(t)
    ensures Chunks([t] + b) == Chunks(b)
  {
    assert ([t] + b)[1..] == b;
  }

  /** The first piece of a text that starts outside a line terminator is its
      leading run of `m` characters. */
  lemma ChunksStep(s: string, m: nat)
    requires |s| > 0 && !IsLineTerminator(s[0])
    requires LeadingRun(s, LineWidth) == m
    ensures Chunks(s) == [s[..m]] + Chunks(s[m..])
  {
  }

  /** In `a + [t] + b` the leading run stops at the terminator `t` or at 64
      characters, whichever comes first, and cutting there splits off the
      first `m` characters of `a`. */
  lemma AroundTerminator(a: string, t: char, b: string, m: nat)
    requires IsSingleLine(a) && IsLineTerminator(t)
    requires m == if |a| <= LineWidth then |a| else LineWidth
    ensures var s := a + [t] + b;
      && s[..m] == a[..m]
      && s[m..] == a[m..] + [t] + b
      && LeadingRun(s, LineWidth) == m
  {
    var s := a + [t] + b;
    assert s == a[..m] + (a[m..] + [t] + b);
    assert forall i :: 0 <= i < |a| ==> s[i] == a[i];
    assert s[|a|] == t;
    LeadingRunStops(s, |a|, LineWidth);
  }

  /** One attempt of `.{1,limit}` on a text whose first terminator is at `k`
      (or which has none, when `k == |s|`) takes `k` characters, capped at
      `limit`. */
  lemma LeadingRunStops(s: string, k: nat, limit: nat)
    requires k <= |s|
    requires forall i :: 0 <= i < k ==> !IsLineTerminator(s[i])
    requires k < |s| ==> IsLineTerminator(s[k])
    ensures LeadingRun(s, limit) == if k <= limit then k else limit
  {
  }

  /** Every fixed-width line but the last has exactly 64 characters, the last
      has 1 to 64, and together they spell the input. */
  lemma {:induction false} FixedWidthLinesShape(s: string)
    requires |s| > 0
    ensures var lines := FixedWidthLines(s);
      && |lines| >= 1
      && (forall k :: 0 <= k < |lines| - 1 ==> |lines[k]| == LineWidth)
      && 1 <= |lines[|lines| - 1]| <= LineWidth
      && Concat(lines) == s
    decreases |s|
  {
    if |s| > LineWidth {
      FixedWidthLinesShape(s[LineWidth..]);
      assert s == s[..LineWidth] + s[LineWidth..];
    }
  }

  /** Splitting the joined lines on `'\n'` gives the lines back when none of
      them holds a `'\n'`. */
  lemma {:induction false} SplitJoin(lines: seq<string>)
    requires |lines| >= 1
    requires forall k :: 0 <= k < |lines| ==> '\n' !in lines[k]
    ensures SplitLines(JoinLines(lines)) == lines
    decreases |lines|
  {
    var s := JoinLines(lines);
    if |lines| == 1 {
      IndexOfAbsent(lines[0], '\n');
    } else {
      var rest := JoinLines(lines[1..]);
      assert s == lines[0] + ("\n" + rest);
      IndexOfAppend(lines[0], "\n" + rest, '\n');
      AroundSeparator(lines[0], rest);
      SplitJoin(lines[1..]);
    }
  }

  /** The two sides of a single `'\n'` between `a` and `b`. */
  lemma AroundSeparator(a: string, b: string)
    ensures (a + ("\n" + b))[..|a|] == a
    ensures (a + ("\n" + b))[|a| + 1..] == b
  {
  }

  lemma {:induction false} StripNewlinesJoin(lines: seq<string>)
    requires forall k :: 0 <= k < |lines| ==> '\n' !in lines[k]
    ensures StripNewlines(JoinLines(lines)) == Concat(lines)
    decreases |lines|
  {
    if |lines| == 0 {
    } else if |lines| == 1 {
      StripNewlinesNoNewline(lines[0]);
      assert Concat(lines) == lines[0] + "";
    } else {
      var rest := JoinLines(lines[1..]);
      StripNewlinesAppend(lines[0], "\n" + rest);
      StripNewlinesNoNewline(lines[0]);
      assert ("\n" + rest)[0] == '\n' && ("\n" + rest)[1..] == rest;
      assert StripNewlines("\n" + rest) == StripNewlines(rest);
      StripNewlinesJoin(lines[1..]);
      assert JoinLines(lines) == lines[0] + ("\n" + rest);
    }
  }

  lemma {:induction false} StripNewlinesAppend(a: string, b: string)
    ensures StripNewlines(a + b) == StripNewlines(a) + StripNewlines(b)
    decreases |a|
  {
    if |a| == 0 {
      assert a + b == b;
    } else {
      assert (a + b)[1..] == a[1..] + b;
      StripNewlinesAppend(a[1..], b);
    }
  }

  lemma {:induction false} StripNewlinesNoNewline(s: string)
    requires '\n' !in s
    ensures StripNewlines(s) == s
    decreases |s|
  {
    if |s| > 0 {
      assert s[0] in s;
      assert forall c :: c in s[1..] ==> c in s;
      StripNewlinesNoNewline(s[1..]);
      assert s == [s[0]] + s[1..];
    }
  }

  lemma SingleLineHasNoNewline(s: string)
    requires IsSingleLine(s)
    ensures '\n' !in s
  {
  }

  /** The output of `certToPEM` is the body framed by the two banners, and its
      body lines are exactly the pieces of the match: at most 64 characters
      each, and together the input without its line terminators. */
  lemma CertToPemFraming(cert: string)
    requires StripTerminators(cert) != ""
    ensures CertToPem(cert).Some?
    ensures var pem := CertToPem(cert).value;
      && pem[..|BeginBanner|] == BeginBanner
      && pem[|pem| - |EndBanner|..] == EndBanner
      && SplitLines(PemBody(pem)) == Chunks(cert)
      && StripNewlines(PemBody(pem)) == StripTerminators(cert)
  {
    var lines := Chunks(cert);
    var pem := CertToPem(cert).value;
    var body := JoinLines(lines);
    assert pem == BeginBanner + body + EndBanner;
    assert PemBody(pem) == body;
    forall k | 0 <= k < |lines|
      ensures '\n' !in lines[k]
    {
      SingleLineHasNoNewline(lines[k]);
    }
    SplitJoin(lines);
    StripNewlinesJoin(lines);
    ChunksConcat(cert);
  }

  /** For a non-empty single-line certificate (the base64 text of a DER
      certificate) the PEM body consists of lines of exactly 64 characters
      followed by one line of 1 to 64, and deleting the newlines gives the
      certificate back. */
  lemma CertToPemRoundTrip(cert: string)
    requires cert != "" && IsSingleLine(cert)
    ensures CertToPem(cert).Some?
    ensures var pem := CertToPem(cert).value;
      var lines := SplitLines(PemBody(pem));
      && pem == BeginBanner + PemBody(pem) + EndBanner
      && (forall k :: 0 <= k < |lines| - 1 ==> |lines[k]| == LineWidth)
      && 1 <= |lines[|lines| - 1]| <= LineWidth
      && StripNewlines(PemBody(pem)) == cert
  {
    StripTerminatorsSingleLine(cert);
    CertToPemFraming(cert);
    ChunksOfSingleLine(cert);
    FixedWidthLinesShape(cert);
    var pem := CertToPem(cert).value;
    assert pem == pem[..|BeginBanner|] + PemBody(pem) + pem[|pem| - |EndBanner|..];
  }
}

=== FILE: resolver.dfy ===
/** `secretCallback` of the API server: the per-token decision of which key
    verifies a token's signature. `express-jwt` calls it with the token's
    header (`alg`, `kid`) and payload (`iss`, `aud`) before checking the
    signature, and it answers through its callback with key material or an
    error.

    The decision, in order: the cache is consulted under `iss + '|' + aud`;
    on a miss the tenant is looked up by the issuer's host; then `alg`
    selects the HS256 path (the tenant's base64 secret, decoded) or the RS256
    path (the issuer's published key set, the first key with the token's
    `kid`, its first certificate wrapped as PEM). Only the two success paths
    write the cache.

    One call is modelled as a pure function from the live cache to a
    `Resolution`: the callback's outcome, the cache after the call, and the
    key-set address requested from the network, if any. The network answer
    is an input. */
module Resolver {
  import opened Wrappers
  import opened KeyCache
  import opened Jwks
  import Data
  import Pem
  import Strings

  /** The protected header members read (section 4.1.1 and 4.1.4 of RFC 7515). */
  datatype Header = Header(alg: string, kid: Option<string>)

  /** The claims read: issuer and audience (sections 4.1.1 and 4.1.3 of
      RFC 7519). */
  datatype Payload = Payload(iss: string, aud: string)

  /** What the resolver depends on besides the token: the tenant directory and
      the two foreign primitives it calls, `url.parse(..).hostname` and
      `new Buffer(.., 'base64')`. */
  datatype Env = Env(
    tenants: seq<Data.Tenant>,
    hostname: Data.HostnameOf,
    base64Decode: string -> seq<bv8>)

  /** The errors passed to the callback. `Transport` carries the request
      library's own error unchanged. `Fault` stands for the exceptions the
      source throws instead of calling the callback:
      `new Buffer(undefined, 'base64')` for a tenant without a secret, thrown
      while the request is being handled, so that Express hands it to the
      error handlers; and `key.x5c[0]` or `match(..).join` on a key without a
      usable certificate, thrown inside the key-set response handler, where
      nothing catches it and the process ends. The model ends the call with
      `Fault` in both cases. */
  datatype ResolveError =
    | InvalidIssuer(issuer: string)
    | Transport(cause: string)
    | JwksUnavailable(issuer: string)
    | SigningKeyNotFound(issuer: string)
    | UnsupportedAlgorithm(alg: string)
    | Fault

  /** The text of the `Error` the source builds for each failure it reports.
      Two kinds carry no text the source builds: `Transport` passes the
      request library's error through, and for `Fault` the text `TypeError`
      only names the kind of exception the runtime raises. */
  function Message(e: ResolveError): string {
    match e
    case InvalidIssuer(iss) => "Invalid issuer " + iss
    case Transport(cause) => cause
    case JwksUnavailable(iss) => "Failed to obtain JWKS from " + iss
    case SigningKeyNotFound(iss) => "Failed to obtain signing key used by " + iss
    case UnsupportedAlgorithm(alg) => "Unsupported JWT algorithm: " + alg
    case Fault => "TypeError"
  }

  /** The text of an error the resolver builds tells it apart from every
      other such error: the failure kind and the issuer or algorithm it names
      can be read back from the message. A transport error carries the
      request library's own text and is left out. */
  lemma MessageIdentifiesError(e1: ResolveError, e2: ResolveError)
    requires !e1.Transport? && !e2.Transport?
    requires Message(e1) == Message(e2)
    ensures e1 == e2
  {
    var m := Message(e1);
    assert m[0] == Message(e2)[0];
    if |m| > 17 {
      assert m[17] == Message(e2)[17];
    }
    match e1
    case InvalidIssuer(a) =>
      SamePrefixSameRest("Invalid issuer ", a, e2.issuer);
    case JwksUnavailable(a) =>
      SamePrefixSameRest("Failed to obtain JWKS from ", a, e2.issuer);
    case SigningKeyNotFound(a) =>
      SamePrefixSameRest("Failed to obtain signing key used by ", a, e2.issuer);
    case UnsupportedAlgorithm(a) =>
      SamePrefixSameRest("Unsupported JWT algorithm: ", a, e2.alg);
    case Fault =>
  }

  lemma SamePrefixSameRest(prefix: string, a: string, b: string)
    ensures prefix + a == prefix + b ==> a == b
  {
    assert a == (prefix + a)[|prefix|..];
    assert b == (prefix + b)[|prefix|..];
  }

  datatype Resolution = Resolution(
    result: Result<Material, ResolveError>,
    cache: Cache,
    jwksRequest: Option<string>)

  const Hs256: string := "HS256"
  const Rs256: string := "RS256"

  /** The cache slot of a token: issuer and audience joined by a bar. The
      algorithm is not part of it. */
  function CacheKey(p: Payload): string {
    p.iss + "|" + p.aud
  }

  /** The RS256 continuation, run when the key-set request completes. */
  function KeyFromJwks(fetch: FetchOutcome, issuer: string, kid: Option<string>): (r: Result<Material, ResolveError>)
    ensures fetch.TransportError? ==> r == Failure(Transport(fetch.cause))
    ensures fetch.Response? && fetch.statusCode != 200 ==> r == Failure(JwksUnavailable(issuer))
    ensures r == Failure(SigningKeyNotFound(issuer)) <==>
              (fetch.Response? && fetch.statusCode == 200 &&
               forall i :: 0 <= i < |fetch.body.keys| ==> fetch.body.keys[i].kid != kid)
    ensures r.Success? ==>
              && fetch.Response? && fetch.statusCode == 200
              && var key := SelectKey(fetch.body.keys, kid);
              && key.Some? && |key.value.x5c| > 0
              && r.value.PublicKeyPem?
              && Pem.CertToPem(key.value.x5c[0]) == Some(r.value.pem)
    // A 200 answer whose first matching key has a convertible first
    // certificate succeeds; a matching key without one makes the source throw.
    ensures fetch.Response? && fetch.statusCode == 200 && SelectKey(fetch.body.keys, kid).Some? ==>
              var key := SelectKey(fetch.body.keys, kid).value;
              if |key.x5c| > 0 && Pem.CertToPem(key.x5c[0]).Some?
              then r == Success(PublicKeyPem(Pem.CertToPem(key.x5c[0]).value))
              else r == Failure(Fault)
  {
    match fetch
    case TransportError(cause) => Failure(Transport(cause))
    case Response(status, body) =>
      if status != 200 then Failure(JwksUnavailable(issuer))
      else match SelectKey(body.keys, kid)
        case None => Failure(SigningKeyNotFound(issuer))
        case Some(key) =>
          if |key.x5c| == 0 then Failure(Fault)
          else match Pem.CertToPem(key.x5c[0])
            case None => Failure(Fault)
            case Some(pem) => Success(PublicKeyPem(pem))
  }

  /** One call of `secretCallback(req, header, payload, cb)`. */
  function Resolve(env: Env, cache: Cache, header: Header, payload: Payload, fetch: FetchOutcome): (r: Resolution)
    // The fast path: a stored entry is answered as is.
    ensures CacheKey(payload) in cache ==>
              r == Resolution(Success(cache[CacheKey(payload)]), cache, None)
    // Failures never touch the cache; successes store what they return.
    ensures r.result.Failure? ==> r.cache == cache
    ensures r.result.Success? ==> r.cache == cache[CacheKey(payload) := r.result.value]
    // The network is used only for RS256 tokens of a known tenant, on a miss.
    ensures r.jwksRequest.Some? <==>
              && CacheKey(payload) !in cache
              && Data.GetTenantByIssuer(env.tenants, env.hostname, payload.iss).Some?
              && header.alg == Rs256
    ensures r.jwksRequest.Some? ==> r.jwksRequest.value == JwksUrl(payload.iss)
  {
    var key := CacheKey(payload);
    match Get(cache, key)
    case Some(cached) => Resolution(Success(cached), cache, None)
    case None =>
      match Data.GetTenantByIssuer(env.tenants, env.hostname, payload.iss)
      case None => Resolution(Failure(InvalidIssuer(payload.iss)), cache, None)
      case Some(tenant) =>
        if header.alg == Hs256 then
          match tenant.secret
          case None => Resolution(Failure(Fault), cache, None)
          case Some(encoded) =>
            var material := Secret(env.base64Decode(encoded));
            Resolution(Success(material), Set(cache, key, material), None)
        else if header.alg == Rs256 then
          var result := KeyFromJwks(fetch, payload.iss, header.kid);
          var cache' := if result.Success? then Set(cache, key, result.value) else cache;
          Resolution(result, cache', Some(JwksUrl(payload.iss)))
        else
          Resolution(Failure(UnsupportedAlgorithm(header.alg)), cache, None)
  }

  // ---------------------------------------------------------------------------
  // The paths of one call

  /** A cache hit answers without reading the tenant directory, the header or
      the network: any other directory, header and fetch outcome give the
      same resolution. */
  lemma HitIgnoresEverythingElse(env: Env, env': Env, cache: Cache, header: Header, header': Header,
                                 payload: Payload, fetch: FetchOutcome, fetch': FetchOutcome)
    requires CacheKey(payload) in cache
    ensures Resolve(env, cache, header, payload, fetch) == Resolve(env', cache, header', payload, fetch')
    ensures Resolve(env, cache, header, payload, fetch).result == Success(cache[CacheKey(payload)])
  {
  }

  /** On a miss, an issuer whose host matches no tenant is rejected before
      any request is made, and the cache stays as it was. */
  lemma UnknownIssuerRejected(env: Env, cache: Cache, header: Header, payload: Payload, fetch: FetchOutcome)
    requires CacheKey(payload) !in cache
    requires Data.GetTenantByIssuer(env.tenants, env.hostname, payload.iss).None?
    ensures Resolve(env, cache, header, payload, fetch) ==
              Resolution(Failure(InvalidIssuer(payload.iss)), cache, None)
  {
  }

  /** HS256 on a miss: the decoded tenant secret is returned and stored under
      the cache key; a tenant without a secret makes the call throw. */
  lemma SymmetricPath(env: Env, cache: Cache, header: Header, payload: Payload, fetch: FetchOutcome, tenant: Data.Tenant)
    requires CacheKey(payload) !in cache
    requires Data.GetTenantByIssuer(env.tenants, env.hostname, payload.iss) == Some(tenant)
    requires header.alg == Hs256
    ensures var r := Resolve(env, cache, header, payload, fetch);
      && r.jwksRequest == None
      && (tenant.secret.Some? ==>
            var m := Secret(env.base64Decode(tenant.secret.value));
            r.result == Success(m) && r.cache == cache[CacheKey(payload) := m])
      && (tenant.secret.None? ==> r.result == Failure(Fault) && r.cache == cache)
  {
  }

  /** RS256 on a miss: the key set of the issuer is requested; transport
      errors pass through unchanged, other statuses than 200 are rejected,
      and in both cases nothing is cached. */
  lemma AsymmetricFetchFailures(env: Env, cache: Cache, header: Header, payload: Payload, fetch: FetchOutcome)
    requires CacheKey(payload) !in cache
    requires Data.GetTenantByIssuer(env.tenants, env.hostname, payload.iss).Some?
    requires header.alg == Rs256
    requires fetch.TransportError? || fetch.statusCode != 200
    ensures var r := Resolve(env, cache, header, payload, fetch);
      && r.jwksRequest == Some(JwksUrl(payload.iss))
      && r.cache == cache
      && (fetch.TransportError? ==> r.result == Failure(Transport(fetch.cause)))
      && (fetch.Response? ==> r.result == Failure(JwksUnavailable(payload.iss)))
  {
  }

  /** RS256 on a miss with a 200 answer: the first key carrying the token's
      `kid` decides. With none, the call fails and caches nothing; with one
      whose first certificate converts, its PEM text is returned and cached. */
  lemma AsymmetricKeySelection(env: Env, cache: Cache, header: Header, payload: Payload, keys: seq<Jwk>, i: nat)
    requires CacheKey(payload) !in cache
    requires Data.GetTenantByIssuer(env.tenants, env.hostname, payload.iss).Some?
    requires header.alg == Rs256
    requires i < |keys| && keys[i].kid == header.kid
    requires forall j :: 0 <= j < i ==> keys[j].kid != header.kid
    requires |keys[i].x5c| > 0 && Pem.CertToPem(keys[i].x5c[0]).Some?
    ensures var r := Resolve(env, cache, header, payload, Response(200, KeySet(keys)));
      var m := PublicKeyPem(Pem.CertToPem(keys[i].x5c[0]).value);
      && r.result == Success(m)
      && r.cache == cache[CacheKey(payload) := m]
  {
  }

  /** RS256 on a miss with a 200 answer and no key carrying the token's
      `kid`: the call fails with the signing-key error and caches nothing. */
  lemma AsymmetricNoMatchingKey(env: Env, cache: Cache, header: Header, payload: Payload, keys: seq<Jwk>)
    requires CacheKey(payload) !in cache
    requires Data.GetTenantByIssuer(env.tenants, env.hostname, payload.iss).Some?
    requires header.alg == Rs256
    requires forall j :: 0 <= j < |keys| ==> keys[j].kid != header.kid
    ensures var r := Resolve(env, cache, header, payload, Response(200, KeySet(keys)));
      r.result == Failure(SigningKeyNotFound(payload.iss)) && r.cache == cache
  {
  }

  /** Any algorithm name other than the two supported ones is rejected on a
      miss for a known tenant, without a request and without caching. */
  lemma UnsupportedAlgorithmRejected(env: Env, cache: Cache, header: Header, payload: Payload, fetch: FetchOutcome)
    requires CacheKey(payload) !in cache
    requires Data.GetTenantByIssuer(env.tenants, env.hostname, payload.iss).Some?
    requires header.alg != Hs256 && header.alg != Rs256
    ensures Resolve(env, cache, header, payload, fetch) ==
              Resolution(Failure(UnsupportedAlgorithm(header.alg)), cache, None)
  {
  }

  // ---------------------------------------------------------------------------
  // Across calls

  /** After a successful resolution, a later call for the same issuer and
      audience (on any header and network answer) is a hit that returns the
      same material, as long as the entry has not been evicted. */
  lemma SuccessThenHit(env: Env, env': Env, cache: Cache, header: Header, header': Header, payload: Payload,
                       fetch: FetchOutcome, fetch': FetchOutcome, gone: set<string>)
    requires Resolve(env, cache, header, payload, fetch).result.Success?
    requires CacheKey(payload) !in gone
    ensures var r1 := Resolve(env, cache, header, payload, fetch);
      var r2 := Resolve(env', Evict(r1.cache, gone), header', payload, fetch');
      r2.result == r1.result && r2.jwksRequest == None
  {
  }

  /** Every cached key belongs to an issuer the directory knows. */
  ghost predicate KnownIssuerKey(env: Env, key: string) {
    exists p: Payload {:trigger CacheKey(p)} ::
      CacheKey(p) == key && Data.GetTenantByIssuer(env.tenants, env.hostname, p.iss).Some?
  }

  ghost predicate CacheSound(env: Env, cache: Cache) {
    forall key :: key in cache ==> KnownIssuerKey(env, key)
  }

  /** Resolution and eviction keep every cache entry attributable to a known
      tenant: an unknown issuer can never plant an entry. */
  lemma ResolvePreservesSoundness(env: Env, cache: Cache, header: Header, payload: Payload,
                                  fetch: FetchOutcome, gone: set<string>)
    requires CacheSound(env, cache)
    ensures CacheSound(env, Resolve(env, cache, header, payload, fetch).cache)
    ensures CacheSound(env, Evict(cache, gone))
  {
    var r := Resolve(env, cache, header, payload, fetch);
    if r.result.Success? && CacheKey(payload) !in cache {
      assert Data.GetTenantByIssuer(env.tenants, env.hostname, payload.iss).Some?;
      assert KnownIssuerKey(env, CacheKey(payload));
    }
  }

  /** On a miss, the kind of material matches the algorithm that asked for
      it. */
  lemma MissMaterialMatchesAlgorithm(env: Env, cache: Cache, header: Header, payload: Payload, fetch: FetchOutcome)
    requires CacheKey(payload) !in cache
    requires Resolve(env, cache, header, payload, fetch).result.Success?
    ensures var m := Resolve(env, cache, header, payload, fetch).result.value;
      (header.alg == Hs256 <==> m.Secret?) && (header.alg == Rs256 <==> m.PublicKeyPem?)
  {
  }

  /** Because the cache key leaves the algorithm out, an RS256 token arriving
      after an HS256 token of the same issuer and audience is answered with
      the HS256 secret bytes. */
  lemma CachedSecretServedToOtherAlgorithm(env: Env, cache: Cache, payload: Payload, kid: Option<string>,
                                           fetch: FetchOutcome, fetch': FetchOutcome)
    requires CacheKey(payload) !in cache
    requires Data.GetTenantByIssuer(env.tenants, env.hostname, payload.iss).Some?
    requires Data.GetTenantByIssuer(env.tenants, env.hostname, payload.iss).value.secret.Some?
    ensures var r1 := Resolve(env, cache, Header(Hs256, kid), payload, fetch);
      var r2 := Resolve(env, r1.cache, Header(Rs256, kid), payload, fetch');
      r2.result.Success? && r2.result.value.Secret? && r2.jwksRequest == None
  {
  }

  // ---------------------------------------------------------------------------
  // The cache key

  /** Issuers without a bar share a cache slot only when issuer and audience
      both agree. */
  lemma CacheKeyInjective(p: Payload, q: Payload)
    requires '|' !in p.iss && '|' !in q.iss
    requires CacheKey(p) == CacheKey(q)
    ensures p == q
  {
    var key := CacheKey(p);
    Strings.IndexOfAppend(p.iss, "|" + p.aud, '|');
    Strings.IndexOfAppend(q.iss, "|" + q.aud, '|');
    assert key == p.iss + ("|" + p.aud) && key == q.iss + ("|" + q.aud);
    assert |p.iss| == |q.iss|;
    assert p.iss == key[..|p.iss|] == q.iss;
    assert p.aud == key[|p.iss| + 1..] == q.aud;
  }

  /** With a bar inside the issuer, two different claim pairs share a slot. */
  lemma CacheKeyCollision()
    ensures CacheKey(Payload("https://a/|x", "y")) == CacheKey(Payload("https://a/", "x|y"))
  {
  }
}

=== FILE: scenarios.dfy ===
/** Concrete resolutions over the two tenants of the sample tenants file:
    `tenant1` signs with RS256 only (no secret), `tenant2` has an HS256
    secret. The file writes the domains as upper-case placeholders; Node's
    `url.parse` lower-cases the host of an issuer, so only lower-case domains
    can ever be found, and the placeholders are used here in lower case. */
module Scenarios {
  import opened Wrappers
  import opened KeyCache
  import opened Jwks
  import Data
  import Resolver

  const Tenant1: Data.Tenant :=
    Data.Tenant("tenant1", "tenant1_namespace.auth0.com", "TENANT1_CLIENT_ID", None)
  const Tenant2: Data.Tenant :=
    Data.Tenant("tenant2", "tenant2_namespace.auth0.com", "TENANT2_CLIENT_ID", Some("TENANT2_SECRET"))
  const SampleTenants: seq<Data.Tenant> := [Tenant1, Tenant2]

  /** An HS256 token of `tenant2` resolves, on an empty cache, to the decoded
      secret; a second token with the same issuer and audience is then served
      from the cache without a directory lookup mattering. */
  lemma Tenant2SymmetricThenCached(hostname: Data.HostnameOf, decode: string -> seq<bv8>, iss: string, aud: string,
                                   other: seq<Data.Tenant>, fetch: FetchOutcome)
    requires hostname(iss) == Some(Tenant2.auth0Domain)
    ensures var env := Resolver.Env(SampleTenants, hostname, decode);
      var p := Resolver.Payload(iss, aud);
      var r1 := Resolver.Resolve(env, map[], Resolver.Header("HS256", None), p, fetch);
      var r2 := Resolver.Resolve(env.(tenants := other), r1.cache, Resolver.Header("HS256", None), p, fetch);
      && r1.result == Success(Secret(decode("TENANT2_SECRET")))
      && r2.result == r1.result
      && r2.cache == r1.cache
  {
    assert Tenant1.auth0Domain != Tenant2.auth0Domain;
    assert SampleTenants[1].auth0Domain == Tenant2.auth0Domain;
    var t := Data.GetTenantByIssuer(SampleTenants, hostname, iss);
    assert t.Some? && t.value.auth0Domain == Tenant2.auth0Domain;
    assert t == Some(Tenant2);
  }

  /** An HS256 token of `tenant1`, which has no secret, makes the call throw
      and leaves the cache empty. */
  lemma Tenant1SymmetricFaults(hostname: Data.HostnameOf, decode: string -> seq<bv8>, iss: string, aud: string,
                               fetch: FetchOutcome)
    requires hostname(iss) == Some(Tenant1.auth0Domain)
    ensures var env := Resolver.Env(SampleTenants, hostname, decode);
      var r := Resolver.Resolve(env, map[], Resolver.Header("HS256", None), Resolver.Payload(iss, aud), fetch);
      r.result == Failure(Resolver.Fault) && r.cache == map[]
  {
    assert Data.GetTenantByIssuer(SampleTenants, hostname, iss) == Some(Tenant1);
  }

  /** An RS256 token of `tenant1` whose `kid` is not in the published set is
      rejected, and a 500 answer is rejected, both leaving the cache empty. */
  lemma Tenant1AsymmetricFailures(hostname: Data.HostnameOf, decode: string -> seq<bv8>, iss: string, aud: string)
    requires hostname(iss) == Some(Tenant1.auth0Domain)
    ensures var env := Resolver.Env(SampleTenants, hostname, decode);
      var h := Resolver.Header("RS256", Some("abc"));
      var p := Resolver.Payload(iss, aud);
      var r1 := Resolver.Resolve(env, map[], h, p, Response(200, KeySet([Jwk(Some("xyz"), ["MIIB"])])));
      var r2 := Resolver.Resolve(env, map[], h, p, Response(500, KeySet([])));
      && r1.result == Failure(Resolver.SigningKeyNotFound(iss)) && r1.cache == map[]
      && r2.result == Failure(Resolver.JwksUnavailable(iss)) && r2.cache == map[]
      && r1.jwksRequest == Some(JwksUrl(iss)) && r2.jwksRequest == Some(JwksUrl(iss))
  {
    assert Data.GetTenantByIssuer(SampleTenants, hostname, iss) == Some(Tenant1);
    assert Some("xyz") != Some("abc");
  }
}

=== FILE: seqs.dfy ===
/** Find-first over an ordered list, the shape of lodash's `_.find`:
    the collection is scanned in order and the first element satisfying the
    predicate wins. */
module Seqs {
  import opened Wrappers

  /** The index of the first element of `xs` satisfying `p`, or `None`. */
  function FindFirst<T>(xs: seq<T>, p: T -> bool): (r: Option<nat>)
    ensures r.Some? ==> r.value < |xs| && p(xs[r.value])
    ensures r.Some? ==> forall j :: 0 <= j < r.value ==> !p(xs[j])
    ensures r.None? <==> forall j :: 0 <= j < |xs| ==> !p(xs[j])
  {
    if |xs| == 0 then None
    else if p(xs[0]) then Some(0)
    else match FindFirst(xs[1..], p)
      case None => None
      case Some(i) => Some(i + 1)
  }

  /** The first element of `xs` satisfying `p`, or `None`. */
  function Find<T>(xs: seq<T>, p: T -> bool): (r: Option<T>)
    ensures r.None? <==> forall j :: 0 <= j < |xs| ==> !p(xs[j])
    ensures r.Some? ==> exists i :: 0 <= i < |xs| && xs[i] == r.value && p(xs[i])
                                    && forall j :: 0 <= j < i ==> !p(xs[j])
  {
    match FindFirst(xs, p)
    case None => None
    case Some(i) => Some(xs[i])
  }

  /** Find-first depends only on which positions satisfy the predicate: two
      lists of the same length whose elements pass and fail at the same
      positions yield the same index. */
  lemma {:induction false} FindFirstAgrees<T, U>(xs: seq<T>, p: T -> bool, ys: seq<U>, q: U -> bool)
    requires |xs| == |ys|
    requires forall j :: 0 <= j < |xs| ==> p(xs[j]) == q(ys[j])
    ensures FindFirst(xs, p) == FindFirst(ys, q)
    decreases |xs|
  {
    if |xs| > 0 && !p(xs[0]) {
      FindFirstAgrees(xs[1..], p, ys[1..], q);
    }
  }
}

=== FILE: spa.dfy ===
/** The root route of the single-page application server (`SPA/app.js`): the
    tenant is read off the request's host name with the pattern
    `/(\w+)-yourcompany.com$/`, looked up by name in the tenants file, and the
    login page is rendered with that tenant's Auth0 domain and client id.

    The pattern is modelled as JavaScript evaluates it on host names of the
    Basic Multilingual Plane (JavaScript counts UTF-16 code units, Dafny
    counts scalar values): it is not anchored at the start, so the leftmost match wins; `$` is the end of the input; and
    the dot before `com` is not escaped, so it stands for any one character
    other than a line terminator. */
module Spa {
  import opened Wrappers
  import opened Strings
  import Seqs
  import Data

  /** `\w` without the unicode flag. */
  predicate IsWordChar(c: char) {
    ('a' <= c <= 'z') || ('A' <= c <= 'Z') || ('0' <= c <= '9') || c == '_'
  }

  const CompanyLabel: string := "-yourcompany"
  const TopLevel: string := "com"
  /** `-yourcompany`, one character for the unescaped dot, and `com`. */
  const SuffixLength: nat := 16

  /** `t` is matched by the part of the pattern after the group, up to `$`. */
  predicate IsSuffix(t: string) {
    && |t| == SuffixLength
    && t[..12] == CompanyLabel
    && !IsLineTerminator(t[12])
    && t[13..] == TopLevel
  }

  /** The pattern matches `host` with the group spanning `host[p..m]`. */
  predicate MatchAt(host: string, p: nat, m: nat) {
    && p < m <= |host|
    && (forall i :: p <= i < m ==> IsWordChar(host[i]))
    && IsSuffix(host[m..])
  }

  /** The start of the longest run of word characters that ends at `q`. */
  function WordRunStart(s: string, q: nat): (p: nat)
    requires q <= |s|
    ensures p <= q
    ensures forall i :: p <= i < q ==> IsWordChar(s[i])
    ensures p == 0 || !IsWordChar(s[p - 1])
  {
    if q == 0 || !IsWordChar(s[q - 1]) then q else WordRunStart(s, q - 1)
  }

  /** The group bounds of the match `host.match(re)` reports: the leftmost
      start at which the pattern matches. */
  function LeftmostMatch(host: string): (r: Option<(nat, nat)>)
    ensures r.Some? ==> MatchAt(host, r.value.0, r.value.1)
    ensures r.Some? ==> forall p, m :: MatchAt(host, p, m) ==> r.value.0 <= p
    ensures r.None? <==> forall p, m :: !MatchAt(host, p, m)
  {
    if |host| <= SuffixLength then None
    else
      var m := |host| - SuffixLength;
      if !IsSuffix(host[m..]) || !IsWordChar(host[m - 1]) then None
      else
        var p := WordRunStart(host, m);
        assert MatchAt(host, p, m);
        Some((p, m))
  }

  /** `getTenantFromDomain(host)`: the captured group, or `None` (the source's
      `null`) when the host does not match. */
  function GetTenantFromDomain(host: string): (r: Option<string>)
    ensures r.None? <==> forall p, m :: !MatchAt(host, p, m)
    ensures r.Some? ==> |r.value| >= 1 && forall i :: 0 <= i < |r.value| ==> IsWordChar(r.value[i])
  {
    match LeftmostMatch(host)
    case None => None
    case Some((p, m)) => Some(host[p..m])
  }

  /** A tenant name read from a host is followed, at the end of the host, by
      `-yourcompany`, one arbitrary non-terminator character and `com`, and is
      preceded by the start of the host or a character outside `\w`: it is the
      whole word run before the suffix. */
  lemma TenantNameShape(host: string)
    requires GetTenantFromDomain(host).Some?
    ensures var name := GetTenantFromDomain(host).value;
      var start := |host| - SuffixLength - |name|;
      && |host| >= |name| + SuffixLength
      && host[start..] == name + CompanyLabel + [host[|host| - 4]] + TopLevel
      && !IsLineTerminator(host[|host| - 4])
      && (start == 0 || !IsWordChar(host[start - 1]))
  {
    var m := |host| - SuffixLength;
    var p := WordRunStart(host, m);
    assert LeftmostMatch(host) == Some((p, m));
    var name := host[p..m];
    var t := host[m..];
    var dot := host[|host| - 4];
    assert t[12] == dot;
    assert t == CompanyLabel + [dot] + TopLevel by {
      assert t == t[..12] + [t[12]] + t[13..];
    }
    assert host[p..] == name + t;
  }

  /** Conversely, every host made of a prefix that does not end in a word
      character, a non-empty word, `-yourcompany`, any non-terminator and
      `com` yields that word. */
  lemma TenantNameFromWellFormedHost(prefix: string, name: string, dot: char)
    requires |name| >= 1 && forall i :: 0 <= i < |name| ==> IsWordChar(name[i])
    requires prefix == "" || !IsWordChar(prefix[|prefix| - 1])
    requires !IsLineTerminator(dot)
    ensures GetTenantFromDomain(prefix + name + CompanyLabel + [dot] + TopLevel) == Some(name)
  {
    var host := prefix + name + CompanyLabel + [dot] + TopLevel;
    var m := |prefix| + |name|;
    HostParts(prefix, name, dot);
    SuffixMatches(dot);
    WordRunStartIs(host, m, |prefix|);
    assert LeftmostMatch(host) == Some((|prefix|, m));
  }

  /** The suffix spelled with any non-terminator in place of the dot. */
  lemma SuffixMatches(dot: char)
    requires !IsLineTerminator(dot)
    ensures IsSuffix(CompanyLabel + [dot] + TopLevel)
  {
    var t := CompanyLabel + [dot] + TopLevel;
    assert t[..12] == CompanyLabel && t[12] == dot && t[13..] == TopLevel;
  }

  /** Where the parts of a composed host name sit. */
  lemma HostParts(prefix: string, name: string, dot: char)
    requires prefix == "" || !IsWordChar(prefix[|prefix| - 1])
    ensures var host := prefix + name + CompanyLabel + [dot] + TopLevel;
      var m := |prefix| + |name|;
      && |host| == m + SuffixLength
      && host[m..] == CompanyLabel + [dot] + TopLevel
      && host[|prefix|..m] == name
      && (forall i :: |prefix| <= i < m ==> host[i] == name[i - |prefix|])
      && (|prefix| > 0 ==> !IsWordChar(host[|prefix| - 1]))
  {
    var host := prefix + name + CompanyLabel + [dot] + TopLevel;
    assert host == prefix + name + (CompanyLabel + [dot] + TopLevel);
  }

  /** The longest word run ending at `q` starts at `p` when `[p, q)` is all
      word characters and the character before `p`, if any, is not one. */
  lemma {:induction false} WordRunStartIs(s: string, q: nat, p: nat)
    requires p <= q <= |s|
    requires forall i :: p <= i < q ==> IsWordChar(s[i])
    requires p == 0 || !IsWordChar(s[p - 1])
    ensures WordRunStart(s, q) == p
    decreases q
  {
    if q > p {
      WordRunStartIs(s, q - 1, p);
    }
  }

  /** The example of the route's comment: only the last word before the
      company suffix is taken. */
  lemma LastWordIsTaken()
    ensures GetTenantFromDomain("foo-bar-yourcompany.com") == Some("bar")
  {
    SpellsHost("foo-", "bar", '.', "foo-bar-yourcompany.com");
    TenantNameFromWellFormedHost("foo-", "bar", '.');
  }

  /** The unescaped dot lets a dash stand where the dot of the domain
      belongs. */
  lemma UnescapedDotAcceptsAnyCharacter()
    ensures GetTenantFromDomain("acme-yourcompany-com") == Some("acme")
  {
    SpellsHost("", "acme", '-', "acme-yourcompany-com");
    TenantNameFromWellFormedHost("", "acme", '-');
  }

  lemma SpellsHost(prefix: string, name: string, dot: char, host: string)
    requires |host| == |prefix| + |name| + SuffixLength
    requires host[..|prefix|] == prefix && host[|prefix|..|prefix| + |name|] == name
    requires host[|prefix| + |name|..] == CompanyLabel + [dot] + TopLevel
    ensures host == prefix + name + CompanyLabel + [dot] + TopLevel
  {
    assert host == host[..|prefix|] + host[|prefix|..|prefix| + |name|] + host[|prefix| + |name|..];
  }

  // ---------------------------------------------------------------------------
  // The `/` route

  /** The view data of the login page. */
  datatype LoginConfig = LoginConfig(auth0Domain: string, auth0ClientId: string)

  /** `Render`: `res.render('index', loginConfig)`. `Next`: `next(message)`,
      with nothing rendered. */
  datatype RootOutcome = Render(view: string, config: LoginConfig) | Next(message: string)

  predicate HasName(t: Data.Tenant, name: string) {
    t.name == name
  }

  /** The tenants file lookup `_.find(tenants, 'name', tenantName)`, taken as
      the first tenant with that name. */
  function TenantByName(tenants: seq<Data.Tenant>, name: string): (r: Option<Data.Tenant>)
    ensures r.Some? ==> r.value.name == name
    ensures r.None? <==> forall i :: 0 <= i < |tenants| ==> tenants[i].name != name
  {
    Seqs.Find(tenants, t => HasName(t, name))
  }

  function RootRoute(tenants: seq<Data.Tenant>, hostname: string): (r: RootOutcome)
    ensures GetTenantFromDomain(hostname).None? ==> r == Next("Invalid domain " + hostname)
    ensures GetTenantFromDomain(hostname).Some? ==>
              var name := GetTenantFromDomain(hostname).value;
              (r == Next("Invalid Tenant " + name) <==>
                 forall i :: 0 <= i < |tenants| ==> tenants[i].name != name)
    ensures r.Render? ==>
              && r.view == "index"
              && GetTenantFromDomain(hostname).Some?
              && exists i :: 0 <= i < |tenants|
                   && tenants[i].name == GetTenantFromDomain(hostname).value
                   && r.config == LoginConfig(tenants[i].auth0Domain, tenants[i].auth0ClientId)
    ensures GetTenantFromDomain(hostname).Some? && TenantByName(tenants, GetTenantFromDomain(hostname).value).Some? ==>
              var t := TenantByName(tenants, GetTenantFromDomain(hostname).value).value;
              r == Render("index", LoginConfig(t.auth0Domain, t.auth0ClientId))
  {
    match GetTenantFromDomain(hostname)
    case None => Next("Invalid domain " + hostname)
    case Some(name) =>
      match TenantByName(tenants, name)
      case None => Next("Invalid Tenant " + name)
      case Some(t) => Render("index", LoginConfig(t.auth0Domain, t.auth0ClientId))
  }

  /** Two tenant lists that agree on every tenant's name, domain and client
      id, whatever their secrets. */
  predicate SameLoginFields(a: seq<Data.Tenant>, b: seq<Data.Tenant>) {
    && |a| == |b|
    && forall i :: 0 <= i < |a| ==>
         && a[i].name == b[i].name
         && a[i].auth0Domain == b[i].auth0Domain
         && a[i].auth0ClientId == b[i].auth0ClientId
  }

  /** The page rendered never depends on a tenant's secret: changing secrets
      (and nothing else) leaves the route's outcome unchanged. */
  lemma LoginPageIgnoresSecrets(a: seq<Data.Tenant>, b: seq<Data.Tenant>, hostname: string)
    requires SameLoginFields(a, b)
    ensures RootRoute(a, hostname) == RootRoute(b, hostname)
  {
    if GetTenantFromDomain(hostname).Some? {
      var name := GetTenantFromDomain(hostname).value;
      Seqs.FindFirstAgrees(a, t => HasName(t, name), b, t => HasName(t, name));
    }
  }
}

=== FILE: strings.dfy ===
/** Character classes and character search shared by the PEM wrapping, the
    bar-separated cache key and the tenant host-name pattern. */
module Strings {

  /** The characters a JavaScript regular-expression `.` does not match. */
  predicate IsLineTerminator(c: char) {
    c == '\n' || c == '\r' || c == '\U{2028}' || c == '\U{2029}'
  }

  /** The index of the first `c` in `s`, or `|s|` when there is none
      (`String.prototype.indexOf`, with `|s|` in place of `-1`). */
  function IndexOf(s: string, c: char): (i: nat)
    ensures i <= |s|
    ensures forall j :: 0 <= j < i ==> s[j] != c
    ensures i < |s| ==> s[i] == c
  {
    if |s| == 0 || s[0] == c then 0 else 1 + IndexOf(s[1..], c)
  }

  lemma {:induction false} IndexOfAbsent(s: string, c: char)
    requires c !in s
    ensures IndexOf(s, c) == |s|
    decreases |s|
  {
    if |s| > 0 {
      assert s[0] in s;
      assert forall x :: x in s[1..] ==> x in s;
      IndexOfAbsent(s[1..], c);
    }
  }

  /** Searching past a prefix that lacks `c` skips the whole prefix. */
  lemma {:induction false} IndexOfAppend(a: string, b: string, c: char)
    requires c !in a
    ensures IndexOf(a + b, c) == |a| + IndexOf(b, c)
    decreases |a|
  {
    if |a| == 0 {
      assert a + b == b;
    } else {
      assert a[0] in a;
      assert forall x :: x in a[1..] ==> x in a;
      assert (a + b)[1..] == a[1..] + b;
      IndexOfAppend(a[1..], b, c);
    }
  }
}

=== FILE: tenant_middleware.dfy ===
/** `addTenant` (`API/tenant-middleware.js`): after `express-jwt` has verified
    a token and stored its payload as `req.user`, the tenant is looked up
    again by the token's issuer and its name is recorded on the request for
    the `/api/users` handler. */
module TenantMiddleware {
  import opened Wrappers
  import Data
  import Resolver
  import KeyCache
  import Jwks

  /** The verified token's claims, as `express-jwt` leaves them on the
      request. */
  datatype Claims = Claims(iss: string, aud: string, sub: string)

  /** The request fields in play: the verified claims, the tenant name this
      middleware sets, and the rest of the request, which it must not touch. */
  datatype Request = Request(user: Claims, tenantName: Option<string>, others: map<string, string>)

  /** `Continue`: `next()` was called once, without an error, on the given
      request. `Threw`: reading `tenant.name` of an undefined tenant threw a
      `TypeError` before `next` was reached; the request is as it was. */
  datatype Outcome = Continue(req: Request) | Threw(req: Request)

  function AddTenant(tenants: seq<Data.Tenant>, hostname: Data.HostnameOf, req: Request): (r: Outcome)
    ensures r.Continue? <==> Data.GetTenantByIssuer(tenants, hostname, req.user.iss).Some?
    ensures r.Continue? ==>
              var t := Data.GetTenantByIssuer(tenants, hostname, req.user.iss).value;
              r.req == req.(tenantName := Some(t.name))
    ensures r.Threw? ==> r.req == req
  {
    match Data.GetTenantByIssuer(tenants, hostname, req.user.iss)
    case None => Threw(req)
    case Some(tenant) => Continue(req.(tenantName := Some(tenant.name)))
  }

  /** Of the verified claims only the issuer is read: requests whose issuers
      agree get the same tenant name, and the middleware's success or failure
      is the same for both. */
  lemma OnlyIssuerIsRead(tenants: seq<Data.Tenant>, hostname: Data.HostnameOf, a: Request, b: Request)
    requires a.user.iss == b.user.iss
    ensures AddTenant(tenants, hostname, a).Continue? == AddTenant(tenants, hostname, b).Continue?
    ensures AddTenant(tenants, hostname, a).req.tenantName == AddTenant(tenants, hostname, b).req.tenantName
              || AddTenant(tenants, hostname, a).Threw?
  {
  }

  /** When the key of a token was resolved by a cache miss, the second lookup
      made here finds the same tenant (the directory does not change), so the
      request continues carrying the name of the tenant whose domain is the
      issuer's host. */
  lemma AgreesWithResolver(env: Resolver.Env, cache: KeyCache.Cache, header: Resolver.Header,
                           payload: Resolver.Payload, fetch: Jwks.FetchOutcome, req: Request)
    requires Resolver.CacheKey(payload) !in cache
    requires Resolver.Resolve(env, cache, header, payload, fetch).result.Success?
    requires req.user.iss == payload.iss
    ensures var r := AddTenant(env.tenants, env.hostname, req);
      && r.Continue?
      && exists i :: 0 <= i < |env.tenants| && r.req.tenantName == Some(env.tenants[i].name)
                     && env.hostname(payload.iss) == Some(env.tenants[i].auth0Domain)
  {
    var t := Data.GetTenantByIssuer(env.tenants, env.hostname, payload.iss);
    assert t.Some?;
    var i :| 0 <= i < |env.tenants| && env.tenants[i] == t.value
             && forall j :: 0 <= j < i ==> env.tenants[j].auth0Domain != t.value.auth0Domain;
    assert AddTenant(env.tenants, env.hostname, req).req.tenantName == Some(env.tenants[i].name);
  }
}

=== FILE: wrappers.dfy ===
/** The two wrappers used across the model: an optional value (the
    JavaScript `undefined`/`null` cases) and a success-or-error result (the
    `cb(err)` / `cb(null, value)` callback convention). */
module Wrappers {

  datatype Option<+T> = None | Some(value: T)

  datatype Result<+R, +E> = Success(value: R) | Failure(error: E)
}
